=== FILE: README.md ===
# hackernews2tg, modelled in Dafny

hackernews2tg relays the current top Hacker News stories to a Telegram channel once a
day. One pass fetches the ranked list of top-story ids, keeps the first five, looks each
one up (skipping the ones whose lookup fails), formats each story as an HTML-mode
Telegram message and posts the messages one by one, logging and moving on when a post
fails.

This project models the pure core of that pass in `main.go` and proves its properties:

- `wrappers.dfy`: `Option`, `Result` and `Outcome`, the model's error values.
- `strings.dfy`: `Find` and `Cut`, used to read produced texts back.
- `decimal.dfy`: Go's `%d` rendering of an integer (`IntToDecimal`) and a reader for it.
- `html.dfy`: Go's `html.EscapeString` (`Escape`: `&`, `<`, `>`, `'` and `"` become
  `&amp;`, `&lt;`, `&gt;`, `&#39;` and `&#34;`, every other character is kept), the decoder
  that undoes it, and the markup skeleton of a text.
- `hacker_news.dfy`: the story record, the truncation of the ranked listing and the
  skip-on-failure lookups of `fetchTopStories`.
- `formatter.dfy`: `formatNewsToHTML`, its link selection, and `ParseMessage`, which
  reads a formatted message back into the fields it shows.
- `telegram.dfy`: `NewTelegramBot`, the request `SendMessage` builds, and how it turns
  the HTTP exchange into success or an error.
- `pipeline.dfy`: `fetchAndSendNews`, one pass of fetch, format and send.

The three remote calls are inputs of the model. The listing is an already decoded
`Result<seq<int>, ListingError>`. The detail lookup is a function `int -> Option<Item>`.
The send is a function from the request to what became of it (`Exchange`: body not
encoded, POST failed, reply not decoded, or a decoded reply). Being functions, the
lookup and the send give the same answer to the same id or the same request within a
pass, where main.go:88 and main.go:159 make a fresh HTTP call each time; none of the
stated properties depends on this.

The formatter escapes the title and the author but inserts the link into `href="…"`
unescaped. The model keeps that. `FormatMarkupSkeleton` therefore says that any markup
character beyond the template's comes from the link, and `FormatThenParse` needs a URL
without `"`.

## Model

| member | source | states |
|---|---|---|
| HackerNews.ListingErrorText | main.go:69-78 | an unreachable listing's text starts with `获取热门故事列表失败: `, an undecodable one's with `解析故事ID列表失败: `, and both end with the underlying cause |
| HackerNews.ListingErrorTextRoundTrip | main.go:69-78 | every listing error text reads back as the same failure: the prefix gives the failed step and the cause comes back whole |
| HackerNews.Truncate | main.go:80-83 | the kept ids are a prefix of the listing, of length `min(n, |ids|)` |
| HackerNews.Resolve | main.go:86-96 | the lookups give at most one story per requested id |
| HackerNews.ResolveIsSuccessfulLookupsInOrder | main.go:87-93 | the stories are exactly the successful lookups, one per successful rank, in increasing rank order; failed ids are dropped and nothing is reordered or duplicated |
| HackerNews.DetailRequests | main.go:81-88 | at most `n` details are requested; none when the listing failed; otherwise a prefix of the listing that is either `n` long or the whole listing |
| HackerNews.FetchTopStories | main.go:67-99 | a listing failure is returned as that same error with no stories; with a listing, the call succeeds whatever the lookups do, with at most `min(n, |ids|)` stories |
| HackerNews.FetchTopStoriesKeepsSuccessfulLookups | main.go:80-98 | the returned stories are the successful lookups among the requested ids, in rank order |
| HackerNews.FetchTopStoriesLoop | main.go:67-99 | main.go's loop (truncate, look up, skip on failure) returns the same stories and requests the same ids as the functional model |
| HackerNews.FailedThirdLookupIsSkipped | main.go:87-93 | with listing [1, 2, 3] and the lookup of 3 failing, all three ids are requested and the stories of 1 and 2 come back in that order |
| Decimal.NatToDecimal | main.go:197-198 | the decimal spelling of a natural number is non-empty, all digits, and has no leading zero unless the number is 0 |
| Decimal.NatToDecimalRoundTrip | main.go:197-198 | the digits of a natural number denote that number |
| Decimal.IntToDecimal | main.go:197-198 | `%d` text is non-empty, starts with `-` exactly for negatives, and is otherwise all digits with no leading zero (`0` alone for zero) |
| Decimal.IntToDecimalRoundTrip | main.go:185 | `%d` text reads back as the same integer |
| Decimal.ParseDecimalAcceptsOnlyDecimal | main.go:197-198 | the reader accepts only `%d` text (no leading zero, no `-0`): any text it reads is exactly the `%d` text of the value read, so the round trip closes in both directions |
| Html.Escape | main.go:189-190 | escaped text is at least as long as the input and holds no raw `<`, `>`, `'` or `"` |
| Html.EscapeRoundTrip | main.go:189-190 | decoding the five entities gives back the original text, so escaping loses nothing |
| Html.EscapeAmpersandsOpenEntities | main.go:189-190 | every `&` in escaped text opens one of `&amp;`, `&lt;`, `&gt;`, `&#39;`, `&#34;` |
| Html.EscapeIdentity | main.go:189-190 | escaping leaves a text unchanged if and only if the text holds none of `& < > ' "` |
| Html.EscapeKeepsPlainChar | main.go:189-190 | a character that is neither special nor used in an entity (a newline, say) is in the escaped text exactly when it is in the original |
| Html.EscapeConcat | main.go:189-190 | escaping works character by character: it distributes over concatenation |
| Html.ScriptTagIsEscaped | main.go:189 | the title `<script>` is escaped to `&lt;script&gt;` |
| Formatter.LinkUrl | main.go:183-186 | a non-empty URL is used unchanged; an empty one gives the discussion-page URL followed by the `%d` text of the story's id, which reads back as that id |
| Formatter.MissingUrlLinksToDiscussion | main.go:183-186 | a story with no URL and id 123 links to `https://news.ycombinator.com/item?id=123` |
| Formatter.FormatNewsToHtml | main.go:181-207 | the message opens with the escaped title in bold on its own line and closes with the escaped author, the `%d` score and the `%d` comment count on their labelled lines, then a blank line |
| Formatter.FormatThenParse | main.go:181-207 | the message lays out title, link, author, score and comment count in that order, and reading it back gives the story's title and author, the selected link and both counts |
| Formatter.FormatMarkupSkeleton | main.go:189-200 | the markup characters of the message are those of `<b>`, `</b>`, `<a href="`, then the link's own, then `">` and `</a>`; the title, author and counts add none |
| Telegram.NewTelegramBot | main.go:127-133 | the bot keeps its token and channel, and its base URL is the API base followed by the token |
| Telegram.BuildRequest | main.go:143-151 | the request goes to the bot's base URL followed by `/sendMessage`, and its body has exactly the fields chat_id (the bot's channel), text (the message unchanged) and parse_mode (`HTML`) |
| Telegram.RequestTargetsBotEndpoint | main.go:127-151 | the request goes to `https://api.telegram.org/bot` + token + `/sendMessage`, and that URL names the bot's token |
| Telegram.SendMessage | main.go:143-178 | a send succeeds exactly when a reply was decoded and says ok; a refusal fails with the reply's code and description; encoding, posting and decoding failures each fail with their own error |
| Telegram.SendErrorText | main.go:153-175 | an encoding, posting or decoding failure's text starts with that step's own prefix and ends with the underlying cause; a refusal's text starts with `telegram API 错误: ` and ends with the description |
| Telegram.SendErrorTextRoundTrip | main.go:153-175 | every send error's text reads back as that same error: the prefix gives the failed step, and the cause, or the code and description, come back whole |
| Telegram.ApiErrorTextCarriesCodeAndDescription | main.go:171-175 | an API error's text holds the decimal code and the description, and both read back whole |
| Telegram.RateLimitedReplyFails | main.go:171-177 | a reply `{ok: false, error_code: 420, description: "rate limited"}` fails with text `telegram API 错误: 420 - rate limited` |
| Pipeline.SendAll | main.go:221-230 | one attempt per message, in order |
| Pipeline.SendAllSendsEachMessage | main.go:222-230 | attempt `i` sends message `i` and records that send's own result, whatever the earlier sends returned |
| Pipeline.FetchAndSendNews | main.go:210-231 | at most five ids are looked up; a listing failure means no lookups and no sends; otherwise there is one send per fetched story, at most five |
| Pipeline.AttemptsAreFormattedStories | main.go:212-224 | attempt `i` sends the formatted text of fetched story `i` through the bot built from the configuration |
| Pipeline.SendsDoNotDependOnOutcomes | main.go:222-230 | the messages a pass attempts are the same whatever the sends return, so a failed send never holds back a later one |
| Pipeline.AttemptsShowFetchedStories | main.go:222-224 | attempt `i`'s message reads back as the title, link, author and counts of fetched story `i` |
| Pipeline.SendLoop | main.go:222-230 | main.go's send loop, carrying on past failed sends, produces the same attempts as `SendAll` |
| Pipeline.FetchAndSendNewsLoop | main.go:210-231 | main.go's pass (fetch, return on a listing failure, then format and send each story) produces the same run as the functional model |

## Left out

- HTTP requests and JSON encoding and decoding (main.go:69-78, 102-117, 153-169): library and network I/O. Their results are inputs of the model (`Result`, `Option`, `Exchange`).
- The pacing sleeps (main.go:95, 229): wall-clock pauses with no effect on what is fetched or sent. Each follows a success only: the `continue` at main.go:91 skips it after a failed lookup and the one at main.go:226 after a failed send.
- The 24-hour ticker and the first immediate run (main.go:41-51): wall-clock scheduling with no logic beyond "run one pass, then again every day".
- Configuration loading and logging (main.go:23-39, 90, 217, 225): environment access and output. `Config` is an input, and error texts are modelled only as values.
- A negative `n`: after any successful listing, even an empty one, the slice at main.go:82 would panic, so `Truncate`, `DetailRequests`, `FetchTopStories` and `FetchTopStoriesLoop` require `n >= 0`.
- Strings as bytes: Go strings are byte sequences, the model's are sequences of Unicode characters. It assumes the decoded texts are valid UTF-8, which holds because Go's JSON decoder replaces invalid bytes, and the escaper rewrites only ASCII characters.
- Go's 64-bit `int` and `int64`: the model's integers are unbounded. A number too large for Go makes the JSON decoding fail, which the model already covers: in the listing (main.go:76) as `ListingUndecodable`, in a story record (main.go:112) as a failed lookup, and in a Telegram reply's `error_code` (main.go:167) as `NotDecoded`.
- Formatter.FormatThenParse: requires a URL without `"` and an author without a newline. main.go:195 writes the link unescaped into `href="…"` and ends the author line at a newline, so without these conditions the message cannot be read back unambiguously.
- Pipeline.AttemptsShowFetchedStories: requires, for story `i`, a URL without `"` and an author without a newline, for the same reason as `Formatter.FormatThenParse`, on which it rests.
- Pipeline.FetchAndSendNewsLoop: formats all fetched stories before the send loop instead of each one just before its send. Formatting is pure and cannot fail, so the messages and their order are the same.

=== FILE: decimal.dfy ===
/** Go's `%d` rendering of an integer, and a reader for it. */
module Decimal {
  import opened Wrappers

  predicate IsDigit(c: char) {
    '0' <= c <= '9'
  }

  predicate AllDigits(s: string) {
    forall k :: 0 <= k < |s| ==> IsDigit(s[k])
  }

  function DigitValue(c: char): (d: nat)
    requires IsDigit(c)
    ensures d < 10
  {
    c as int - '0' as int
  }

  function DigitChar(d: nat): (c: char)
    requires d < 10
    ensures IsDigit(c) && DigitValue(c) == d
  {
    ('0' as int + d) as char
  }

  /** Shortest decimal spelling of `n`: digits only, and no leading zero unless `n` is 0. */
  function NatToDecimal(n: nat): (s: string)
    ensures |s| > 0 && AllDigits(s)
    ensures n == 0 ==> s == "0"
    ensures n > 0 ==> s[0] != '0'
    decreases n
  {
    if n < 10 then [DigitChar(n)] else NatToDecimal(n / 10) + [DigitChar(n % 10)]
  }

  /** The number a digit string denotes (most significant digit first). */
  function DigitsValue(s: string): nat
    requires AllDigits(s)
    decreases |s|
  {
    if s == [] then 0 else 10 * DigitsValue(s[..|s| - 1]) + DigitValue(s[|s| - 1])
  }

  lemma {:induction false} NatToDecimalRoundTrip(n: nat)
    ensures DigitsValue(NatToDecimal(n)) == n
    decreases n
  {
    if n >= 10 {
      var s := NatToDecimal(n);
      assert s[..|s| - 1] == NatToDecimal(n / 10);
      NatToDecimalRoundTrip(n / 10);
    }
  }

  /** The `%d` verb on a signed integer: a minus sign for negatives, then the magnitude. */
  function IntToDecimal(i: int): (s: string)
    ensures |s| > 0
    ensures s[0] == '-' <==> i < 0
    ensures forall k :: 0 <= k < |s| ==> IsDigit(s[k]) || s[k] == '-'
    ensures i < 0 ==> |s| > 1 && AllDigits(s[1..]) && s[1] != '0'
    ensures i >= 0 ==> AllDigits(s) && (s[0] == '0' <==> i == 0) && (i == 0 ==> s == "0")
  {
    if i < 0 then "-" + NatToDecimal(-i) else NatToDecimal(i)
  }

  /** A digit string with no leading zero, the only form `%d` writes a magnitude in. */
  predicate Canonical(s: string) {
    |s| > 0 && AllDigits(s) && (s[0] == '0' ==> |s| == 1)
  }

  /** Reads an optionally signed decimal integer in the form `%d` writes: no leading
      zero and no `-0`; anything else is `None`. */
  function ParseDecimal(s: string): Option<int> {
    if |s| > 1 && s[0] == '-' && Canonical(s[1..]) && s[1] != '0' then Some(-(DigitsValue(s[1..]) as int))
    else if Canonical(s) then Some(DigitsValue(s))
    else None
  }

  /** `%d` loses nothing: its text reads back as the same integer. */
  lemma IntToDecimalRoundTrip(i: int)
    ensures ParseDecimal(IntToDecimal(i)) == Some(i)
  {
    var s := IntToDecimal(i);
    if i < 0 {
      assert s[1..] == NatToDecimal(-i);
      NatToDecimalRoundTrip(-i);
    } else {
      NatToDecimalRoundTrip(i);
    }
  }

  /** A canonical digit string is the decimal spelling of the number it denotes. */
  lemma {:induction false} CanonicalIsNatToDecimal(s: string)
    requires Canonical(s)
    ensures NatToDecimal(DigitsValue(s)) == s
    decreases |s|
  {
    if |s| == 1 {
      assert s[..0] == [];
      assert DigitsValue(s) == DigitValue(s[0]);
    } else {
      var p := s[..|s| - 1];
      var d := DigitValue(s[|s| - 1]);
      assert p[0] == s[0];
      CanonicalIsNatToDecimal(p);
      var v := DigitsValue(s);
      assert v == 10 * DigitsValue(p) + d;
      assert v / 10 == DigitsValue(p) && v % 10 == d;
      assert DigitChar(d) == s[|s| - 1];
      assert s == p + [s[|s| - 1]];
    }
  }

  /** The reader accepts only `%d` text: whatever it reads is written back identically,
      so no two texts read as the same integer. */
  lemma ParseDecimalAcceptsOnlyDecimal(s: string)
    ensures ParseDecimal(s).Some? ==> IntToDecimal(ParseDecimal(s).value) == s
  {
    if |s| > 1 && s[0] == '-' && Canonical(s[1..]) && s[1] != '0' {
      var t := s[1..];
      CanonicalIsNatToDecimal(t);
      assert s == "-" + t;
    } else if Canonical(s) {
      CanonicalIsNatToDecimal(s);
    }
  }
}

=== FILE: formatter.dfy ===
/** `formatNewsToHTML`: one story as a Telegram HTML-mode message, and a reader that
    takes such a message apart again. */
module Formatter {
  import opened Wrappers
  import opened Strings
  import opened Decimal
  import opened Html
  import opened HackerNews

  /** Discussion page of a story on Hacker News, minus the id. */
  const DiscussionBase := "https://news.ycombinator.com/item?id="

  // The message template, cut at the places where the fields go:
  // TitleOpen, title, TitleClose, link, LinkClose, author, AuthorClose, score,
  // ScoreClose, comment count, MessageEnd. The longer pieces are glued from short
  // named literals, which keeps the facts about them cheap to prove.
  const TitleOpen := "<b>"
  const BoldEnd := "</b>\n\n"
  const LinkMarker := "\U{1F517} "
  const AnchorOpen := "<a href=\""
  const TitleClose := BoldEnd + LinkMarker + AnchorOpen
  const AnchorText := "\">阅读原文"
  const AnchorClose := "</a>"
  const AuthorLabel := "\n\U{1F464} 作者: "
  const LinkClose := AnchorText + AnchorClose + AuthorLabel
  const AuthorClose := "\n\U{1F44D} 点赞: "
  const ScoreClose := "\n\U{1F4AC} 评论: "
  const MessageEnd := "\n\n"

  /** The link the message points to: the story's own URL, or its discussion page
      (which names the story's id) when the URL is empty. */
  function LinkUrl(item: Item): (link: string)
    ensures item.url != "" ==> link == item.url
    ensures item.url == "" ==> DiscussionBase <= link && link[|DiscussionBase|..] == IntToDecimal(item.id)
    ensures item.url == "" ==> ParseDecimal(link[|DiscussionBase|..]) == Some(item.id)
    ensures '"' !in item.url ==> '"' !in link
  {
    if item.url == "" then
      var link := DiscussionBase + IntToDecimal(item.id);
      IntToDecimalRoundTrip(item.id);
      assert link[|DiscussionBase|..] == IntToDecimal(item.id);
      link
    else
      item.url
  }

  /** The message for one story; built from its last line backwards so that each
      stage of `ParseMessage` sees one field followed by the rest. It opens with the
      escaped title in bold on a line of its own and closes with the escaped author, the
      `%d` score and the `%d` comment count on their labelled lines and a blank line;
      `FormatThenParse` and `FormatMarkupSkeleton` state the rest. */
  function FormatNewsToHtml(item: Item): (msg: string)
    ensures TitleOpen + Escape(item.title) + BoldEnd <= msg
    ensures EndsWith(msg, IntToDecimal(item.descendants) + MessageEnd)
    ensures EndsWith(msg, Escape(item.author) + AuthorClose
                          + (IntToDecimal(item.score) + ScoreClose + IntToDecimal(item.descendants) + MessageEnd))
  {
    var counts := IntToDecimal(item.score) + ScoreClose + IntToDecimal(item.descendants) + MessageEnd;
    var fromAuthor := Escape(item.author) + AuthorClose + counts;
    var fromLink := LinkUrl(item) + LinkClose + fromAuthor;
    EndsWithLastTwo(IntToDecimal(item.score) + ScoreClose, IntToDecimal(item.descendants), MessageEnd);
    EndsWithAfter(Escape(item.author) + AuthorClose, counts, IntToDecimal(item.descendants) + MessageEnd);
    EndsWithAfter(LinkUrl(item) + LinkClose, fromAuthor, IntToDecimal(item.descendants) + MessageEnd);
    EndsWithAfter(TitleOpen + Escape(item.title) + TitleClose, fromLink, IntToDecimal(item.descendants) + MessageEnd);
    assert EndsWith(fromAuthor, fromAuthor);
    EndsWithAfter(LinkUrl(item) + LinkClose, fromAuthor, fromAuthor);
    EndsWithAfter(TitleOpen + Escape(item.title) + TitleClose, fromLink, fromAuthor);
    assert BoldEnd <= TitleClose;
    PrefixThroughMiddle(TitleOpen + Escape(item.title), BoldEnd, TitleClose, fromLink);
    TitleOpen + Escape(item.title) + TitleClose + fromLink
  }

  /** What a reader of the message learns: the fields the message shows. */
  datatype Shown = Shown(title: string, link: string, author: string, score: int, descendants: int)

  /** Reads the two count lines and the closing blank line. */
  function ParseCounts(text: string): Option<(int, int)> {
    var score := Cut(text, '\n', ScoreClose);
    if score.None? then None
    else
      var comments := Cut(score.value.1, '\n', MessageEnd);
      if comments.None? || comments.value.1 != [] then None
      else
        var s := ParseDecimal(score.value.0);
        var d := ParseDecimal(comments.value.0);
        if s.None? || d.None? then None else Some((s.value, d.value))
  }

  /** Reads the author line (up to its newline) and what follows it. */
  function ParseAuthorOn(text: string): Option<(string, int, int)> {
    var author := Cut(text, '\n', AuthorClose);
    if author.None? then None
    else
      var counts := ParseCounts(author.value.1);
      if counts.None? then None
      else Some((Unescape(author.value.0), counts.value.0, counts.value.1))
  }

  /** Reads the link (up to the closing quote of `href`) and what follows it. */
  function ParseLinkOn(text: string): Option<(string, (string, int, int))> {
    var link := Cut(text, '"', LinkClose);
    if link.None? then None
    else
      var rest := ParseAuthorOn(link.value.1);
      if rest.None? then None else Some((link.value.0, rest.value))
  }

  /** Reads the title (up to the first `<`) and what follows it. */
  function ParseTitleOn(text: string): Option<Shown> {
    var title := Cut(text, '<', TitleClose);
    if title.None? then None
    else
      var rest := ParseLinkOn(title.value.1);
      if rest.None? then None
      else
        var fields := rest.value.1;
        Some(Shown(Unescape(title.value.0), rest.value.0, fields.0, fields.1, fields.2))
  }

  /** Reads a message laid out by `FormatNewsToHtml` back into its fields: the title ends
      at the first `<`, the link at the first `"`, each later field at the first newline. */
  function ParseMessage(msg: string): Option<Shown> {
    if TitleOpen <= msg then ParseTitleOn(msg[|TitleOpen|..]) else None
  }

  lemma ParseCountsOfFormat(score: int, descendants: int)
    ensures ParseCounts(IntToDecimal(score) + ScoreClose + IntToDecimal(descendants) + MessageEnd) == Some((score, descendants))
  {
    var s := IntToDecimal(score);
    var d := IntToDecimal(descendants);
    CutAtSeparator(s, '\n', ScoreClose, d + MessageEnd);
    assert s + ScoreClose + d + MessageEnd == s + ScoreClose + (d + MessageEnd);
    assert d + MessageEnd == d + MessageEnd + [];
    CutAtSeparator(d, '\n', MessageEnd, []);
    IntToDecimalRoundTrip(score);
    IntToDecimalRoundTrip(descendants);
  }

  lemma ParseAuthorOnFormat(author: string, rest: string, score: int, descendants: int)
    requires '\n' !in author
    requires ParseCounts(rest) == Some((score, descendants))
    ensures ParseAuthorOn(Escape(author) + AuthorClose + rest) == Some((author, score, descendants))
  {
    EscapeKeepsPlainChar(author, '\n');
    CutAtSeparator(Escape(author), '\n', AuthorClose, rest);
    EscapeRoundTrip(author);
  }

  lemma ParseLinkOnFormat(link: string, rest: string, fields: (string, int, int))
    requires '"' !in link
    requires ParseAuthorOn(rest) == Some(fields)
    ensures ParseLinkOn(link + LinkClose + rest) == Some((link, fields))
  {
    CutAtSeparator(link, '"', LinkClose, rest);
  }

  lemma ParseTitleOnFormat(title: string, rest: string, link: string, fields: (string, int, int))
    requires ParseLinkOn(rest) == Some((link, fields))
    ensures ParseTitleOn(Escape(title) + TitleClose + rest) == Some(Shown(title, link, fields.0, fields.1, fields.2))
  {
    assert '<' !in Escape(title);
    assert TitleClose[0] == '<';
    CutAtSeparator(Escape(title), '<', TitleClose, rest);
    EscapeRoundTrip(title);
  }

  lemma ParseMessageAfterTitleOpen(text: string)
    ensures ParseMessage(TitleOpen + text) == ParseTitleOn(text)
  {
    var msg := TitleOpen + text;
    assert msg[..|TitleOpen|] == TitleOpen;
    assert msg[|TitleOpen|..] == text;
  }

  /** The message is laid out in the fixed order title, link, author, score, comment count,
      and it shows each of them faithfully: reading it back gives the story's title and
      author (unescaped), the selected link, and the two counts. The link is written
      unescaped and the author line ends at a newline, hence the two conditions. */
  lemma FormatThenParse(item: Item)
    requires '"' !in item.url
    requires '\n' !in item.author
    ensures ParseMessage(FormatNewsToHtml(item)) == Some(Shown(item.title, LinkUrl(item), item.author, item.score, item.descendants))
  {
    var link := LinkUrl(item);
    var counts := IntToDecimal(item.score) + ScoreClose + IntToDecimal(item.descendants) + MessageEnd;
    var fromAuthor := Escape(item.author) + AuthorClose + counts;
    var fromLink := link + LinkClose + fromAuthor;
    assert FormatNewsToHtml(item) == TitleOpen + (Escape(item.title) + TitleClose + fromLink);
    ParseCountsOfFormat(item.score, item.descendants);
    ParseAuthorOnFormat(item.author, counts, item.score, item.descendants);
    ParseLinkOnFormat(link, fromAuthor, (item.author, item.score, item.descendants));
    ParseTitleOnFormat(item.title, fromLink, link, (item.author, item.score, item.descendants));
    ParseMessageAfterTitleOpen(Escape(item.title) + TitleClose + fromLink);
  }

  lemma TitleOpenMarkup()
    ensures MarkupChars(TitleOpen) == "<>"
  {
  }

  lemma BoldEndMarkup()
    ensures MarkupChars(BoldEnd) == "<>"
  {
  }

  lemma LinkMarkerMarkup()
    ensures MarkupChars(LinkMarker) == []
  {
  }

  lemma AnchorOpenMarkup()
    ensures MarkupChars(AnchorOpen) == "<\""
  {
  }

  lemma AnchorTextMarkup()
    ensures MarkupChars(AnchorText) == "\">"
  {
  }

  lemma AnchorCloseMarkup()
    ensures MarkupChars(AnchorClose) == "<>"
  {
  }

  lemma AuthorLabelMarkup()
    ensures MarkupChars(AuthorLabel) == []
  {
  }

  lemma TitleCloseMarkup()
    ensures MarkupChars(TitleClose) == "<><\""
  {
    BoldEndMarkup();
    LinkMarkerMarkup();
    AnchorOpenMarkup();
    MarkupCharsConcat(BoldEnd + LinkMarker, AnchorOpen);
    MarkupCharsConcat(BoldEnd, LinkMarker);
  }

  lemma LinkCloseMarkup()
    ensures MarkupChars(LinkClose) == "\"><>"
  {
    AnchorTextMarkup();
    AnchorCloseMarkup();
    AuthorLabelMarkup();
    MarkupCharsConcat(AnchorText + AnchorClose, AuthorLabel);
    MarkupCharsConcat(AnchorText, AnchorClose);
  }

  lemma CountLinesMarkup()
    ensures MarkupChars(AuthorClose) == [] && MarkupChars(ScoreClose) == [] && MarkupChars(MessageEnd) == []
  {
  }

  /** The author line and the two count lines carry no markup at all. */
  lemma TailMarkup(item: Item)
    ensures MarkupChars(Escape(item.author) + AuthorClose + (IntToDecimal(item.score) + ScoreClose + IntToDecimal(item.descendants) + MessageEnd)) == []
  {
    var s := IntToDecimal(item.score);
    var d := IntToDecimal(item.descendants);
    var a := Escape(item.author);
    CountLinesMarkup();
    MarkupCharsOfPlain(s);
    MarkupCharsOfPlain(d);
    MarkupCharsOfPlain(a);
    MarkupCharsConcat(s + ScoreClose + d, MessageEnd);
    MarkupCharsConcat(s + ScoreClose, d);
    MarkupCharsConcat(s, ScoreClose);
    var counts := s + ScoreClose + d + MessageEnd;
    assert MarkupChars(counts) == [];
    MarkupCharsConcat(a + AuthorClose, counts);
    MarkupCharsConcat(a, AuthorClose);
  }

  /** From the link on, the message's markup is the link's own followed by `">` and `</a>`. */
  lemma FromLinkMarkup(item: Item)
    ensures MarkupChars(LinkUrl(item) + LinkClose + (Escape(item.author) + AuthorClose
              + (IntToDecimal(item.score) + ScoreClose + IntToDecimal(item.descendants) + MessageEnd)))
            == MarkupChars(LinkUrl(item)) + "\"><>"
  {
    var link := LinkUrl(item);
    var fromAuthor := Escape(item.author) + AuthorClose + (IntToDecimal(item.score) + ScoreClose + IntToDecimal(item.descendants) + MessageEnd);
    TailMarkup(item);
    LinkCloseMarkup();
    MarkupCharsConcat(link + LinkClose, fromAuthor);
    MarkupCharsConcat(link, LinkClose);
  }

  /** Up to the link, the message's markup is that of `<b>`, `</b>` and `<a href="`. */
  lemma TitleLineMarkup(t: string, rest: string)
    requires MarkupChars(t) == []
    ensures MarkupChars(TitleOpen + t + TitleClose + rest) == "<><><\"" + MarkupChars(rest)
  {
    TitleOpenMarkup();
    TitleCloseMarkup();
    MarkupCharsConcat(TitleOpen + t + TitleClose, rest);
    MarkupCharsConcat(TitleOpen + t, TitleClose);
    MarkupCharsConcat(TitleOpen, t);
  }

  /** Markup safety: the markup characters of the message are those of `<b>`, `</b>`,
      `<a href="`, then only the link's own, then `">` and `</a>`. The title, the author
      and the counts contribute none, so no story text can open or close a tag. */
  lemma FormatMarkupSkeleton(item: Item)
    ensures MarkupChars(FormatNewsToHtml(item)) == "<><><\"" + MarkupChars(LinkUrl(item)) + "\"><>"
  {
    var t := Escape(item.title);
    var fromLink := LinkUrl(item) + LinkClose + (Escape(item.author) + AuthorClose
                      + (IntToDecimal(item.score) + ScoreClose + IntToDecimal(item.descendants) + MessageEnd));
    assert FormatNewsToHtml(item) == TitleOpen + t + TitleClose + fromLink;
    MarkupCharsOfPlain(t);
    TitleLineMarkup(t, fromLink);
    FromLinkMarkup(item);
  }

  /** A story without a URL and with id 123 links to its discussion page for id 123. */
  lemma MissingUrlLinksToDiscussion(item: Item)
    requires item.url == "" && item.id == 123
    ensures LinkUrl(item) == "https://news.ycombinator.com/item?id=123"
  {
    assert NatToDecimal(1) == "1";
    assert NatToDecimal(12) == "12";
    assert NatToDecimal(123) == "123";
  }
}

=== FILE: hacker_news.dfy ===
/** The story source: the ranked id listing, its truncation to the first `n` ids, and
    the per-id detail lookups whose failures are skipped. Both remote calls are inputs:
    the listing as an already decoded `Result`, the detail request as a function. */
module HackerNews {
  import opened Wrappers

  /** One story as decoded from the detail endpoint; `time` is in epoch seconds and
      `author` is the JSON field `by`. */
  datatype Item = Item(
    id: int,
    title: string,
    url: string,
    score: int,
    time: int,
    author: string,
    itemType: string,
    descendants: int)

  /** Why the ranked listing could not be obtained: the request itself failed, or its
      body was not a JSON array of integers. */
  datatype ListingError = ListingUnreachable(cause: string) | ListingUndecodable(cause: string)

  // The prefixes of the two listing error texts; they open with different characters.
  const UnreachablePrefix := "获取热门故事列表失败: "
  const UndecodablePrefix := "解析故事ID列表失败: "

  /** The error text the listing failure carries into the log: a prefix naming the step
      that failed, then the underlying cause. */
  function ListingErrorText(e: ListingError): (text: string)
    ensures |text| > |e.cause| && text[|text| - |e.cause|..] == e.cause
    ensures e.ListingUnreachable? ==> UnreachablePrefix <= text
    ensures e.ListingUndecodable? ==> UndecodablePrefix <= text
  {
    match e
    case ListingUnreachable(cause) => UnreachablePrefix + cause
    case ListingUndecodable(cause) => UndecodablePrefix + cause
  }

  /** Reads a listing error text back into the failure it reports. */
  function ParseListingErrorText(text: string): Option<ListingError> {
    if UnreachablePrefix <= text then Some(ListingUnreachable(text[|UnreachablePrefix|..]))
    else if UndecodablePrefix <= text then Some(ListingUndecodable(text[|UndecodablePrefix|..]))
    else None
  }

  /** The text tells which step failed and carries the cause whole. */
  lemma ListingErrorTextRoundTrip(e: ListingError)
    ensures ParseListingErrorText(ListingErrorText(e)) == Some(e)
  {
    var text := ListingErrorText(e);
    assert UnreachablePrefix[0] == '获' && UndecodablePrefix[0] == '解';
    match e
    case ListingUnreachable(cause) =>
      assert text[|UnreachablePrefix|..] == cause;
    case ListingUndecodable(cause) =>
      assert text[0] == '解';
      assert text[|UndecodablePrefix|..] == cause;
  }

  /** Keeps only the first `n` ids when the listing is longer than that. */
  function Truncate(ids: seq<int>, n: int): (kept: seq<int>)
    requires n >= 0
    ensures kept <= ids
    ensures |kept| == if |ids| > n then n else |ids|
  {
    if |ids| > n then ids[..n] else ids
  }

  /** Looks every id up in rank order, appending each story found and skipping each
      id whose lookup failed. */
  function Resolve(ids: seq<int>, detail: int -> Option<Item>): (stories: seq<Item>)
    ensures |stories| <= |ids|
    decreases |ids|
  {
    if ids == [] then []
    else
      var earlier := Resolve(ids[..|ids| - 1], detail);
      match detail(ids[|ids| - 1])
      case Some(story) => earlier + [story]
      case None => earlier
  }

  /** The ranks (positions in `ids`) whose lookup succeeds, in increasing order. */
  function Hits(ids: seq<int>, detail: int -> Option<Item>): (ranks: seq<nat>)
    ensures forall k :: 0 <= k < |ranks| ==> ranks[k] < |ids| && detail(ids[ranks[k]]).Some?
    ensures forall k, l :: 0 <= k < l < |ranks| ==> ranks[k] < ranks[l]
    ensures forall i :: 0 <= i < |ids| && detail(ids[i]).Some? ==> i in ranks
    decreases |ids|
  {
    if ids == [] then []
    else
      var earlier := Hits(ids[..|ids| - 1], detail);
      if detail(ids[|ids| - 1]).Some? then earlier + [|ids| - 1] else earlier
  }

  /** The resolved stories are exactly the successful lookups, one per successful rank,
      in rank order: nothing reordered, nothing duplicated, failed ids dropped. */
  lemma {:induction false} ResolveIsSuccessfulLookupsInOrder(ids: seq<int>, detail: int -> Option<Item>)
    ensures |Resolve(ids, detail)| == |Hits(ids, detail)|
    ensures forall k :: 0 <= k < |Hits(ids, detail)| ==>
              detail(ids[Hits(ids, detail)[k]]) == Some(Resolve(ids, detail)[k])
    decreases |ids|
  {
    if ids != [] {
      var front := ids[..|ids| - 1];
      ResolveIsSuccessfulLookupsInOrder(front, detail);
      forall i | 0 <= i < |front|
        ensures front[i] == ids[i]
      {
      }
    }
  }

  /** The ids whose details are requested: none when the listing failed, otherwise the
      first `n` ids of the listing. */
  function DetailRequests(listing: Result<seq<int>, ListingError>, n: int): (requested: seq<int>)
    requires n >= 0
    ensures |requested| <= n
    ensures listing.Failure? ==> requested == []
    ensures listing.Success? ==> requested <= listing.value
    ensures listing.Success? ==> |requested| == n || requested == listing.value
  {
    match listing
    case Failure(_) => []
    case Success(ids) => Truncate(ids, n)
  }

  /** `fetchTopStories(n)`: fails only when the listing failed, with that same error;
      otherwise yields the successful lookups among the requested ids. */
  function FetchTopStories(listing: Result<seq<int>, ListingError>, detail: int -> Option<Item>, n: int)
    : (r: Result<seq<Item>, ListingError>)
    requires n >= 0
    ensures listing.Failure? ==> r == Failure(listing.error)
    ensures listing.Success? ==> r.Success?
    ensures r.Success? ==> |r.value| <= n && |r.value| <= |listing.value|
  {
    match listing
    case Failure(e) => Failure(e)
    case Success(ids) => Success(Resolve(Truncate(ids, n), detail))
  }

  /** Ties the fetched stories to the requested ids: exactly the successful lookups
      among them, in rank order. */
  lemma FetchTopStoriesKeepsSuccessfulLookups(listing: Result<seq<int>, ListingError>, detail: int -> Option<Item>, n: int)
    requires n >= 0
    requires listing.Success?
    ensures var requested := DetailRequests(listing, n);
            var stories := FetchTopStories(listing, detail, n).value;
            var ranks := Hits(requested, detail);
            && |stories| == |ranks|
            && (forall k :: 0 <= k < |ranks| ==> detail(requested[ranks[k]]) == Some(stories[k]))
  {
    ResolveIsSuccessfulLookupsInOrder(DetailRequests(listing, n), detail);
  }

  /** The loop of `fetchTopStories` step by step: truncate, then look each id up,
      skipping failures. Also reports the ids it looked up. */
  method FetchTopStoriesLoop(listing: Result<seq<int>, ListingError>, detail: int -> Option<Item>, n: int)
    returns (r: Result<seq<Item>, ListingError>, requested: seq<int>)
    requires n >= 0
    ensures r == FetchTopStories(listing, detail, n)
    ensures requested == DetailRequests(listing, n)
  {
    if listing.Failure? {
      return Failure(listing.error), [];
    }
    var storyIds := listing.value;
    if |storyIds| > n {
      storyIds := storyIds[..n];
    }
    var stories: seq<Item> := [];
    requested := [];
    var i := 0;
    while i < |storyIds|
      invariant 0 <= i <= |storyIds|
      invariant requested == storyIds[..i]
      invariant stories == Resolve(storyIds[..i], detail)
    {
      var id := storyIds[i];
      assert storyIds[..i + 1][..i] == storyIds[..i];
      requested := requested + [id];
      var story := detail(id);
      i := i + 1;
      if story.None? {
        continue;
      }
      stories := stories + [story.value];
    }
    assert storyIds[..i] == storyIds;
    r := Success(stories);
  }

  /** Listing [1, 2, 3] with `n` = 3, where the lookup of 3 fails: all three ids are
      requested and the stories of 1 and 2 come back, in that order. */
  lemma FailedThirdLookupIsSkipped(detail: int -> Option<Item>, first: Item, second: Item)
    requires detail(1) == Some(first) && detail(2) == Some(second) && detail(3) == None
    ensures DetailRequests(Success([1, 2, 3]), 3) == [1, 2, 3]
    ensures FetchTopStories(Success([1, 2, 3]), detail, 3) == Success([first, second])
  {
    var ids := [1, 2, 3];
    assert Truncate(ids, 3) == ids;
    assert ids[..2] == [1, 2] && [1, 2][..1] == [1] && [1][..0] == [];
    assert Resolve([1], detail) == [first];
    assert Resolve([1, 2], detail) == [first, second];
    assert Resolve(ids, detail) == [first, second];
  }
}

=== FILE: html.dfy ===
/** Go's `html.EscapeString`, which the formatter applies to the title and the author,
    together with the decoder that undoes it. */
module Html {

  /** The five characters `html.EscapeString` rewrites. */
  predicate IsSpecial(c: char) {
    c == '&' || c == '<' || c == '>' || c == '\'' || c == '"'
  }

  /** The specials that may never appear raw in escaped text; `&` may, but only to open an entity. */
  predicate IsMarkup(c: char) {
    c == '<' || c == '>' || c == '\'' || c == '"'
  }

  predicate NoSpecials(s: string) {
    forall k :: 0 <= k < |s| ==> !IsSpecial(s[k])
  }

  /** The characters the five entities are spelled with. */
  predicate IsEntityChar(c: char) {
    c == '&' || c == ';' || c == '#' || c == 'a' || c == 'm' || c == 'p'
    || c == 'l' || c == 'g' || c == 't' || c == '3' || c == '4' || c == '9'
  }

  /** True when `s` begins with one of the five entities `Escape` writes. */
  predicate StartsEntity(s: string) {
    "&amp;" <= s || "&lt;" <= s || "&gt;" <= s || "&#39;" <= s || "&#34;" <= s
  }

  /** The replacement of one character. */
  function EscapeChar(c: char): string {
    match c
    case '&' => "&amp;"
    case '\'' => "&#39;"
    case '<' => "&lt;"
    case '>' => "&gt;"
    case '"' => "&#34;"
    case _ => [c]
  }

  /** Replaces each special character by its entity and keeps every other character. */
  function Escape(s: string): (r: string)
    ensures |r| >= |s|
    ensures forall k :: 0 <= k < |r| ==> !IsMarkup(r[k])
    decreases |s|
  {
    if s == [] then [] else EscapeChar(s[0]) + Escape(s[1..])
  }

  /** Replaces each of the five entities by the character it stands for, scanning left to right. */
  function Unescape(s: string): string
    decreases |s|
  {
    if s == [] then []
    else if "&amp;" <= s then "&" + Unescape(s[5..])
    else if "&#39;" <= s then "'" + Unescape(s[5..])
    else if "&lt;" <= s then "<" + Unescape(s[4..])
    else if "&gt;" <= s then ">" + Unescape(s[4..])
    else if "&#34;" <= s then "\"" + Unescape(s[5..])
    else [s[0]] + Unescape(s[1..])
  }

  /** Decoding undoes the replacement of one character, whatever follows it. */
  lemma UnescapeEscapeChar(c: char, t: string)
    ensures Unescape(EscapeChar(c) + t) == [c] + Unescape(t)
  {
    var e := EscapeChar(c);
    assert (e + t)[|e|..] == t;
    if |e| > 3 {
      assert (e + t)[1] == e[1] && (e + t)[3] == e[3];
    }
    if !IsSpecial(c) {
      assert e == [c] && (e + t)[0] == c;
    }
  }

  /** Escaping loses nothing: decoding the five entities gives back the original text. */
  lemma {:induction false} EscapeRoundTrip(s: string)
    ensures Unescape(Escape(s)) == s
    decreases |s|
  {
    if s != [] {
      EscapeRoundTrip(s[1..]);
      UnescapeEscapeChar(s[0], Escape(s[1..]));
      assert s == [s[0]] + s[1..];
    }
  }

  /** Every `&` in escaped text opens one of the five entities. */
  lemma {:induction false} EscapeAmpersandsOpenEntities(s: string)
    ensures forall k :: 0 <= k < |Escape(s)| && Escape(s)[k] == '&' ==> StartsEntity(Escape(s)[k..])
    decreases |s|
  {
    if s != [] {
      var r := Escape(s);
      var e := EscapeChar(s[0]);
      var t := Escape(s[1..]);
      assert r == e + t;
      EscapeAmpersandsOpenEntities(s[1..]);
      forall k | 0 <= k < |r| && r[k] == '&'
        ensures StartsEntity(r[k..])
      {
        if k < |e| {
          assert e[k] == '&';
          assert k == 0;
          assert r[k..] == e + t;
        } else {
          assert r[k..] == t[k - |e|..];
        }
      }
    }
  }

  /** Escaping changes a text exactly when the text holds a special character. */
  lemma {:induction false} EscapeIdentity(s: string)
    ensures Escape(s) == s <==> NoSpecials(s)
    decreases |s|
  {
    if s != [] {
      var t := Escape(s[1..]);
      EscapeIdentity(s[1..]);
      assert Escape(s) == EscapeChar(s[0]) + t;
      if IsSpecial(s[0]) {
        assert |Escape(s)| > |s|;
      } else {
        assert s == [s[0]] + s[1..];
        assert Escape(s)[1..] == t;
      }
    }
  }

  /** A character that is neither special nor part of an entity is in the escaped text
      exactly when it is in the original. */
  lemma {:induction false} EscapeKeepsPlainChar(s: string, c: char)
    requires !IsSpecial(c) && !IsEntityChar(c)
    ensures c in Escape(s) <==> c in s
    decreases |s|
  {
    if s != [] {
      EscapeKeepsPlainChar(s[1..], c);
      assert Escape(s) == EscapeChar(s[0]) + Escape(s[1..]);
      assert s == [s[0]] + s[1..];
      assert c in EscapeChar(s[0]) <==> c == s[0];
    }
  }

  /** Escaping works character by character, so it distributes over concatenation. */
  lemma {:induction false} EscapeConcat(a: string, b: string)
    ensures Escape(a + b) == Escape(a) + Escape(b)
    decreases |a|
  {
    if a != [] {
      assert (a + b)[0] == a[0];
      assert (a + b)[1..] == a[1..] + b;
      assert Escape(a + b) == EscapeChar(a[0]) + Escape(a[1..] + b);
      EscapeConcat(a[1..], b);
      assert Escape(a) == EscapeChar(a[0]) + Escape(a[1..]);
      assert EscapeChar(a[0]) + (Escape(a[1..]) + Escape(b)) == (EscapeChar(a[0]) + Escape(a[1..])) + Escape(b);
    } else {
      assert a + b == b;
    }
  }

  /** The markup characters of `s`, in order: what an HTML reader could take for tag
      or attribute syntax. */
  function MarkupChars(s: string): (m: string)
    ensures forall k :: 0 <= k < |m| ==> IsMarkup(m[k])
    decreases |s|
  {
    if s == [] then [] else (if IsMarkup(s[0]) then [s[0]] else []) + MarkupChars(s[1..])
  }

  lemma {:induction false} MarkupCharsConcat(a: string, b: string)
    ensures MarkupChars(a + b) == MarkupChars(a) + MarkupChars(b)
    decreases |a|
  {
    if a == [] {
      assert a + b == b;
    } else {
      assert (a + b)[0] == a[0];
      assert (a + b)[1..] == a[1..] + b;
      MarkupCharsConcat(a[1..], b);
    }
  }

  /** A text with no markup character has no markup skeleton. */
  lemma {:induction false} MarkupCharsOfPlain(s: string)
    requires forall k :: 0 <= k < |s| ==> !IsMarkup(s[k])
    ensures MarkupChars(s) == []
    decreases |s|
  {
    if s != [] {
      MarkupCharsOfPlain(s[1..]);
    }
  }

  /** A script tag in a title comes out as text, not as a tag. */
  lemma ScriptTagIsEscaped()
    ensures Escape("<script>") == "&lt;script&gt;"
  {
  }
}

=== FILE: pipeline.dfy ===
/** `fetchAndSendNews`: one pass of the pipeline. Fetch five stories, then format and
    send each one in turn, logging and moving on when a send fails. */
module Pipeline {
  import opened Wrappers
  import opened HackerNews
  import opened Formatter
  import opened Telegram

  /** The bot token and the destination channel, loaded once at start-up. */
  datatype Config = Config(telegramToken: string, channelId: string)

  /** How many top stories one pass fetches. */
  const StoriesPerRun := 5

  /** One send: the message that was attempted and what became of it. */
  datatype Attempt = Attempt(message: string, outcome: Outcome<SendError>)

  /** The message of each story, in story order. Formatting is pure, so formatting every
      story first and then sending the messages in order does what main.go's loop
      does when it formats each story just before sending it. */
  function FormatAll(stories: seq<Item>): seq<string> {
    seq(|stories|, i requires 0 <= i < |stories| => FormatNewsToHtml(stories[i]))
  }

  /** Sends the messages in order, one attempt each, whatever the earlier attempts gave. */
  function SendAll(bot: TelegramBot, messages: seq<string>, exchange: SendRequest -> Exchange): (attempts: seq<Attempt>)
    ensures |attempts| == |messages|
    decreases |messages|
  {
    if messages == [] then []
    else
      var last := messages[|messages| - 1];
      SendAll(bot, messages[..|messages| - 1], exchange) + [Attempt(last, SendMessage(bot, last, exchange))]
  }

  /** Attempt `i` sends message `i` and records what that send returned. */
  lemma {:induction false} SendAllSendsEachMessage(bot: TelegramBot, messages: seq<string>, exchange: SendRequest -> Exchange)
    ensures forall i :: 0 <= i < |messages| ==>
              SendAll(bot, messages, exchange)[i] == Attempt(messages[i], SendMessage(bot, messages[i], exchange))
    decreases |messages|
  {
    if messages != [] {
      var front := messages[..|messages| - 1];
      SendAllSendsEachMessage(bot, front, exchange);
      forall i | 0 <= i < |messages|
        ensures SendAll(bot, messages, exchange)[i] == Attempt(messages[i], SendMessage(bot, messages[i], exchange))
      {
        if i < |front| {
          assert front[i] == messages[i];
        }
      }
    }
  }

  /** Everything one pass does that can be observed: the fetch result, the ids whose
      details were requested, and the sends attempted. */
  datatype Run = Run(fetched: Result<seq<Item>, ListingError>, requested: seq<int>, attempts: seq<Attempt>)

  function FetchAndSendNews(config: Config, listing: Result<seq<int>, ListingError>,
                            detail: int -> Option<Item>, exchange: SendRequest -> Exchange): (run: Run)
    ensures |run.requested| <= StoriesPerRun
    ensures run.fetched.Failure? <==> listing.Failure?
    ensures run.fetched.Failure? ==> run.requested == [] && run.attempts == []
    ensures run.fetched.Success? ==> |run.attempts| == |run.fetched.value| <= StoriesPerRun
  {
    var bot := NewTelegramBot(config.telegramToken, config.channelId);
    var fetched := FetchTopStories(listing, detail, StoriesPerRun);
    var requested := DetailRequests(listing, StoriesPerRun);
    match fetched
    case Failure(_) => Run(fetched, requested, [])
    case Success(stories) => Run(fetched, requested, SendAll(bot, FormatAll(stories), exchange))
  }

  /** The messages a pass attempts are exactly the formatted fetched stories, in order,
      each sent through the configured bot; the sends' results play no part in which
      messages are attempted. */
  lemma AttemptsAreFormattedStories(config: Config, listing: Result<seq<int>, ListingError>,
                                    detail: int -> Option<Item>, exchange: SendRequest -> Exchange)
    requires listing.Success?
    ensures var run := FetchAndSendNews(config, listing, detail, exchange);
            var bot := NewTelegramBot(config.telegramToken, config.channelId);
            forall i :: 0 <= i < |run.attempts| ==>
              && run.attempts[i].message == FormatNewsToHtml(run.fetched.value[i])
              && run.attempts[i].outcome == SendMessage(bot, run.attempts[i].message, exchange)
  {
    var run := FetchAndSendNews(config, listing, detail, exchange);
    var bot := NewTelegramBot(config.telegramToken, config.channelId);
    SendAllSendsEachMessage(bot, FormatAll(run.fetched.value), exchange);
  }

  function Messages(attempts: seq<Attempt>): seq<string> {
    seq(|attempts|, i requires 0 <= i < |attempts| => attempts[i].message)
  }

  /** A failed send never holds back a later one: the messages a pass attempts are the
      same whatever the sends return. */
  lemma SendsDoNotDependOnOutcomes(config: Config, listing: Result<seq<int>, ListingError>,
                                   detail: int -> Option<Item>, x1: SendRequest -> Exchange, x2: SendRequest -> Exchange)
    ensures Messages(FetchAndSendNews(config, listing, detail, x1).attempts)
         == Messages(FetchAndSendNews(config, listing, detail, x2).attempts)
  {
    if listing.Success? {
      AttemptsAreFormattedStories(config, listing, detail, x1);
      AttemptsAreFormattedStories(config, listing, detail, x2);
    }
  }

  /** Every attempted message reads back as the fetched story at the same position, for
      stories whose URL has no quote and whose author has no newline. */
  lemma AttemptsShowFetchedStories(config: Config, listing: Result<seq<int>, ListingError>,
                                   detail: int -> Option<Item>, exchange: SendRequest -> Exchange, i: int)
    requires listing.Success?
    requires var run := FetchAndSendNews(config, listing, detail, exchange);
             0 <= i < |run.attempts| && '"' !in run.fetched.value[i].url && '\n' !in run.fetched.value[i].author
    ensures var run := FetchAndSendNews(config, listing, detail, exchange);
            var story := run.fetched.value[i];
            ParseMessage(run.attempts[i].message)
            == Some(Shown(story.title, LinkUrl(story), story.author, story.score, story.descendants))
  {
    var run := FetchAndSendNews(config, listing, detail, exchange);
    AttemptsAreFormattedStories(config, listing, detail, exchange);
    FormatThenParse(run.fetched.value[i]);
  }

  /** The send loop as main.go runs it: send each message in turn, carrying on past
      failed sends. */
  method SendLoop(bot: TelegramBot, messages: seq<string>, exchange: SendRequest -> Exchange)
    returns (attempts: seq<Attempt>)
    ensures attempts == SendAll(bot, messages, exchange)
  {
    attempts := [];
    var i := 0;
    while i < |messages|
      invariant 0 <= i <= |messages|
      invariant attempts == SendAll(bot, messages[..i], exchange)
    {
      var message := messages[i];
      var outcome := SendMessage(bot, message, exchange);
      assert messages[..i + 1][..i] == messages[..i];
      attempts := attempts + [Attempt(message, outcome)];
      i := i + 1;
    }
    assert messages[..i] == messages;
  }

  /** The pass step by step: fetch, give up on a listing failure, otherwise format the
      fetched stories and run the send loop over the messages. */
  method FetchAndSendNewsLoop(config: Config, listing: Result<seq<int>, ListingError>,
                              detail: int -> Option<Item>, exchange: SendRequest -> Exchange)
    returns (run: Run)
    ensures run == FetchAndSendNews(config, listing, detail, exchange)
  {
    var bot := NewTelegramBot(config.telegramToken, config.channelId);
    var fetched, requested := FetchTopStoriesLoop(listing, detail, StoriesPerRun);
    if fetched.Failure? {
      return Run(fetched, requested, []);
    }
    var attempts := SendLoop(bot, FormatAll(fetched.value), exchange);
    run := Run(fetched, requested, attempts);
  }
}

=== FILE: strings.dfy ===
/** Searching and splitting sequences; used to read the produced texts back. */
module Strings {
  import opened Wrappers

  /** Position of the first `c` in `s`, or `|s|` when `s` has none. */
  function Find<T(==)>(s: seq<T>, c: T): (i: nat)
    ensures i <= |s|
    ensures i < |s| ==> s[i] == c
    ensures forall j :: 0 <= j < i ==> s[j] != c
    decreases |s|
  {
    if s == [] then 0
    else if s[0] == c then 0
    else 1 + Find(s[1..], c)
  }

  /** Splits `s` at its first `stop`, provided the text from there on begins with `sep`;
      yields the part before `sep` and the part after it. */
  function Cut<T(==)>(s: seq<T>, stop: T, sep: seq<T>): (r: Option<(seq<T>, seq<T>)>)
    ensures r.Some? ==> r.value.0 + sep + r.value.1 == s
    ensures r.Some? ==> stop !in r.value.0
  {
    var i := Find(s, stop);
    if sep <= s[i..] then
      assert s == s[..i] + sep + s[i + |sep|..];
      Some((s[..i], s[i + |sep|..]))
    else
      None
  }

  /** Cutting a text glued together around a separator that opens with `stop` gives back
      the two glued parts, as long as the first part holds no `stop`. */
  lemma CutAtSeparator<T>(a: seq<T>, stop: T, sep: seq<T>, b: seq<T>)
    requires stop !in a
    requires |sep| > 0 && sep[0] == stop
    ensures Cut(a + sep + b, stop, sep) == Some((a, b))
  {
    var s := a + sep + b;
    assert s[|a|] == stop;
    assert Find(s, stop) == |a|;
    assert s[|a|..] == sep + b;
    assert s[..|a|] == a;
    assert s[|a| + |sep|..] == b;
  }

  /** `s` ends with `t`. */
  predicate EndsWith<T(==)>(s: seq<T>, t: seq<T>) {
    |t| <= |s| && s[|s| - |t|..] == t
  }

  /** Text put in front keeps a text's ending. */
  lemma EndsWithAfter<T>(a: seq<T>, b: seq<T>, t: seq<T>)
    requires EndsWith(b, t)
    ensures EndsWith(a + b, t)
  {
    assert (a + b)[|a + b| - |t|..] == b[|b| - |t|..];
  }

  /** The last two parts of a concatenation are its ending. */
  lemma EndsWithLastTwo<T>(a: seq<T>, b: seq<T>, c: seq<T>)
    ensures EndsWith(a + b + c, b + c)
  {
    assert a + b + c == a + (b + c);
    assert (a + (b + c))[|a|..] == b + c;
  }

  /** A prefix of the middle part, with the front part put before it, is a prefix of the whole. */
  lemma PrefixThroughMiddle<T>(a: seq<T>, p: seq<T>, b: seq<T>, c: seq<T>)
    requires p <= b
    ensures a + p <= a + b + c
  {
    assert (a + b + c)[..|a + p|] == a + p;
  }
}

=== FILE: telegram.dfy ===
/** The channel publisher: `NewTelegramBot` and `SendMessage`. The HTTP exchange (encoding
    the body, the POST, decoding the reply) is an input function from request to what
    became of it; what the model states is the request that is built and how the
    exchange is turned into success or an error. */
module Telegram {
  import opened Wrappers
  import opened Strings
  import opened Decimal

  const ApiBase := "https://api.telegram.org/bot"
  const SendPath := "/sendMessage"
  const ParseMode := "HTML"

  /** A bot bound to one token and one destination channel. */
  datatype TelegramBot = TelegramBot(token: string, channelId: string, baseUrl: string)

  /** The bot's base URL is the API base with the token appended. */
  function NewTelegramBot(token: string, channelId: string): (bot: TelegramBot)
    ensures bot.token == token && bot.channelId == channelId
    ensures ApiBase <= bot.baseUrl && bot.baseUrl[|ApiBase|..] == token
  {
    TelegramBot(token, channelId, ApiBase + token)
  }

  /** A POST to `url` whose JSON body object has the fields of `body`. */
  datatype SendRequest = SendRequest(url: string, body: map<string, string>)

  /** The sendMessage request for `text`: the bot's base URL plus `/sendMessage`, and a
      body with exactly the fields chat_id, text and parse_mode. */
  function BuildRequest(bot: TelegramBot, text: string): (req: SendRequest)
    ensures bot.baseUrl <= req.url && req.url[|bot.baseUrl|..] == SendPath
    ensures req.body.Keys == {"chat_id", "text", "parse_mode"}
    ensures req.body["chat_id"] == bot.channelId && req.body["text"] == text
    ensures req.body["parse_mode"] == ParseMode
  {
    SendRequest(bot.baseUrl + SendPath, map["chat_id" := bot.channelId, "text" := text, "parse_mode" := ParseMode])
  }

  /** The token named by a sendMessage URL, if the URL has that shape. */
  function TokenOfSendUrl(url: string): Option<string> {
    if |url| >= |ApiBase| + |SendPath| && ApiBase <= url && url[|url| - |SendPath|..] == SendPath
    then Some(url[|ApiBase|..|url| - |SendPath|])
    else None
  }

  /** The request goes to the API endpoint of the bot's own token, carries the bot's
      channel and the text unchanged, and asks for HTML parsing. */
  lemma RequestTargetsBotEndpoint(token: string, channelId: string, text: string)
    ensures var req := BuildRequest(NewTelegramBot(token, channelId), text);
            && req.url == ApiBase + token + SendPath
            && TokenOfSendUrl(req.url) == Some(token)
            && req.body == map["chat_id" := channelId, "text" := text, "parse_mode" := "HTML"]
  {
    var url := ApiBase + token + SendPath;
    assert url[|url| - |SendPath|..] == SendPath;
    assert url[|ApiBase|..|url| - |SendPath|] == token;
  }

  /** The decoded reply of the Bot API. */
  datatype TelegramResponse = TelegramResponse(ok: bool, errorCode: int, description: string)

  /** What became of one request: its body could not be encoded, the POST failed, the
      reply could not be decoded, or a decoded reply came back. */
  datatype Exchange =
    | NotEncoded(cause: string)
    | NotPosted(cause: string)
    | NotDecoded(cause: string)
    | Replied(reply: TelegramResponse)

  /** The four ways a send fails; the last carries the API's own error code and text. */
  datatype SendError =
    | EncodeFailed(cause: string)
    | PostFailed(cause: string)
    | DecodeFailed(cause: string)
    | ApiError(code: int, description: string)

  /** `SendMessage`: posts the request for `text` and reads the exchange. Succeeds exactly
      when a reply was decoded and it says ok; every other exchange maps to its own error,
      a refusal keeping the reply's code and description. */
  function SendMessage(bot: TelegramBot, text: string, exchange: SendRequest -> Exchange): (r: Outcome<SendError>)
    ensures var x := exchange(BuildRequest(bot, text));
            && (r.Pass? <==> x.Replied? && x.reply.ok)
            && (x.Replied? && !x.reply.ok ==> r == Fail(ApiError(x.reply.errorCode, x.reply.description)))
            && (x.NotEncoded? ==> r == Fail(EncodeFailed(x.cause)))
            && (x.NotPosted? ==> r == Fail(PostFailed(x.cause)))
            && (x.NotDecoded? ==> r == Fail(DecodeFailed(x.cause)))
  {
    match exchange(BuildRequest(bot, text))
    case NotEncoded(cause) => Fail(EncodeFailed(cause))
    case NotPosted(cause) => Fail(PostFailed(cause))
    case NotDecoded(cause) => Fail(DecodeFailed(cause))
    case Replied(reply) =>
      if !reply.ok then Fail(ApiError(reply.errorCode, reply.description)) else Pass
  }

  // The prefixes of the four error texts; each opens with a different character.
  const EncodeErrorPrefix := "序列化消息失败: "
  const PostErrorPrefix := "发送消息失败: "
  const DecodeErrorPrefix := "解析响应失败: "
  const ApiErrorPrefix := "telegram API 错误: "
  const CodeSeparator := " - "

  /** The error text a failed send carries into the log: a prefix naming the step that
      failed, then the underlying cause, or for a refusal the code and description. */
  function SendErrorText(e: SendError): (text: string)
    ensures !e.ApiError? ==> |text| > |e.cause| && EndsWith(text, e.cause)
    ensures e.EncodeFailed? ==> EncodeErrorPrefix <= text
    ensures e.PostFailed? ==> PostErrorPrefix <= text
    ensures e.DecodeFailed? ==> DecodeErrorPrefix <= text
    ensures e.ApiError? ==> ApiErrorPrefix <= text && EndsWith(text, e.description)
  {
    match e
    case EncodeFailed(cause) => EncodeErrorPrefix + cause
    case PostFailed(cause) => PostErrorPrefix + cause
    case DecodeFailed(cause) => DecodeErrorPrefix + cause
    case ApiError(code, description) => ApiErrorPrefix + IntToDecimal(code) + CodeSeparator + description
  }

  /** Reads the code and description back out of an API error text. */
  function ParseApiErrorText(text: string): Option<(int, string)> {
    if !(ApiErrorPrefix <= text) then None
    else
      var parts := Cut(text[|ApiErrorPrefix|..], ' ', CodeSeparator);
      if parts.None? then None
      else
        var code := ParseDecimal(parts.value.0);
        if code.None? then None else Some((code.value, parts.value.1))
  }

  /** An API refusal's error text carries both the numeric code and the description,
      whole and recoverable, whatever the description says. */
  lemma ApiErrorTextCarriesCodeAndDescription(code: int, description: string)
    ensures ParseApiErrorText(SendErrorText(ApiError(code, description))) == Some((code, description))
  {
    var digits := IntToDecimal(code);
    var text := ApiErrorPrefix + digits + CodeSeparator + description;
    assert text == ApiErrorPrefix + (digits + CodeSeparator + description);
    assert text[..|ApiErrorPrefix|] == ApiErrorPrefix;
    assert text[|ApiErrorPrefix|..] == digits + CodeSeparator + description;
    assert ' ' !in digits;
    CutAtSeparator(digits, ' ', CodeSeparator, description);
    IntToDecimalRoundTrip(code);
  }

  /** Reads an error text back into the error it reports; the prefix decides the kind. */
  function ParseSendErrorText(text: string): Option<SendError> {
    if EncodeErrorPrefix <= text then Some(EncodeFailed(text[|EncodeErrorPrefix|..]))
    else if PostErrorPrefix <= text then Some(PostFailed(text[|PostErrorPrefix|..]))
    else if DecodeErrorPrefix <= text then Some(DecodeFailed(text[|DecodeErrorPrefix|..]))
    else
      var parsed := ParseApiErrorText(text);
      if parsed.None? then None else Some(ApiError(parsed.value.0, parsed.value.1))
  }

  /** Every error text names the failed step and carries its cause, or the refusal's code
      and description, whole: different errors never give the same text. */
  lemma SendErrorTextRoundTrip(e: SendError)
    ensures ParseSendErrorText(SendErrorText(e)) == Some(e)
  {
    var text := SendErrorText(e);
    assert EncodeErrorPrefix[0] == '序' && PostErrorPrefix[0] == '发';
    assert DecodeErrorPrefix[0] == '解' && ApiErrorPrefix[0] == 't';
    match e
    case EncodeFailed(cause) =>
      assert text[|EncodeErrorPrefix|..] == cause;
    case PostFailed(cause) =>
      assert text[0] == '发';
      assert text[|PostErrorPrefix|..] == cause;
    case DecodeFailed(cause) =>
      assert text[0] == '解';
      assert text[|DecodeErrorPrefix|..] == cause;
    case ApiError(code, description) =>
      assert text[0] == 't';
      ApiErrorTextCarriesCodeAndDescription(code, description);
  }

  /** A rate-limit refusal (`ok` false, code 420, "rate limited") fails with both the
      code and the description in its text: `telegram API 错误: 420 - rate limited`. */
  lemma RateLimitedReplyFails(bot: TelegramBot, text: string, exchange: SendRequest -> Exchange)
    requires exchange(BuildRequest(bot, text)) == Replied(TelegramResponse(false, 420, "rate limited"))
    ensures SendMessage(bot, text, exchange) == Fail(ApiError(420, "rate limited"))
    ensures SendErrorText(SendMessage(bot, text, exchange).error) == ApiErrorPrefix + "420" + CodeSeparator + "rate limited"
  {
    assert NatToDecimal(4) == "4";
    assert NatToDecimal(42) == "42";
    assert NatToDecimal(420) == "420";
  }
}

=== FILE: wrappers.dfy ===
/** Failure-carrying datatypes shared by every module of the model. */
module Wrappers {

  /** A value that may be absent: a lookup that failed, a text that did not parse. */
  datatype Option<+T> = None | Some(value: T)

  /** A computation that either produced a value or failed with an error. */
  datatype Result<+T, +E> = Success(value: T) | Failure(error: E)

  /** A computation with no value of its own that either passed or failed with an error
      (Go's plain `error` return, where `nil` means success). */
  datatype Outcome<+E> = Pass | Fail(error: E)
}
